=== FILE: README.md ===
# Cron project: the App component, modelled in Dafny

The `App` component of the cron project has two small tools.

- **Cron expression evaluator.** The user types a cron expression. `parseCronExpression` trims it, splits it on runs of whitespace and assigns the pieces to the six `ParsedFields`: seconds, minutes, hours, days, month and dayOfWeek.
  - Six pieces fill the fields in order.
  - Five pieces are the form without seconds, so seconds becomes `"0"` and the pieces fill the other five fields.
  - Any other count, or blank input, clears all six fields (`resetParsedFields`).
  - The content of a piece is never checked.
- **Recurrence pattern generator.** `generateDescription` switches on the selected pattern and writes one English sentence into `generatedDescription`.
  - Daily: "Runs every day at 12:00 PM."
  - Weekly: the ticked days in Monday→Sunday list order, e.g. "Runs every week on Monday, Wednesday and Friday at 09:00 AM.", or the guidance sentence when no day is ticked.
  - Monthly: "Runs every month on the 17th at 01:30 PM."
  - Any other pattern gives the empty text.
  - `formatTime` turns a 24-hour "HH:MM" into a 12-hour "hh:mm AM/PM".
  - `addOrdinalSuffix` writes the day of the month as an English ordinal.

The project has six files.

| File | Module | Contents |
|---|---|---|
| `text.dfy` | `Text` | JavaScript `trim`, `split(/\s+/)` and `join`, and the token view of an expression |
| `numerals.dfy` | `Numerals` | `toString`, `Number` on digit strings, `padStart(2, "0")` and the truncating `%` |
| `formatters.dfy` | `Formatters` | `formatTime` and `addOrdinalSuffix`, which are pure |
| `cron.dfy` | `Cron` | the `ParsedFields` record and the specification `Parse` of the field splitter |
| `recurrence.dfy` | `Recurrence` | the `DayOfWeek` record, the initial `daysOfWeek` list and the specification `Describe` of the sentences |
| `app.dfy` | `Component` | the `App` class, whose fields the methods update in place, as in the source; each method is proved against `Parse` or `Describe` |

## Model

| member | source | states |
|---|---|---|
| Text.Trim | src/app/app.ts:67 | `trim()` leaves text with no whitespace at either end. The result is empty exactly when the input is blank, which is the test `parseCronExpression` starts with. TrimOfMargins pins down the result exactly. |
| Text.TrimOfMargins | src/app/app.ts:67 | Trimming blank margins from text that neither starts nor ends with whitespace gives exactly that text, for every such text and every pair of margins. |
| Text.SplitWs | src/app/app.ts:72 | `split(/\s+/)` always yields at least one piece, and no piece holds whitespace. SplitSpread pins down the pieces exactly. |
| Text.SplitSpread | src/app/app.ts:72 | Splitting non-empty words separated by runs of whitespace gives back exactly those words, in order. |
| Text.Tokens | src/app/app.ts:67-72 | The tokens of an expression (trim, then split): none is empty or holds whitespace. There are none exactly when the expression is blank. |
| Text.TokensOfLayout | src/app/app.ts:72 | Any words separated by whitespace runs, with blank margins around them, split back into exactly those words in order. This is the inverse of laying the words out. |
| Text.Join | src/app/app.ts:150-153 | `Array.prototype.join`: the parts with the separator between neighbours. JoinDaysByLast states what the two joins of the weekly sentence build. |
| Cron.ParseShape | src/app/app.ts:66-108 | After parsing, the six fields are either all empty or all non-empty. They are non-empty exactly when the expression has five or six tokens, and all empty exactly when they equal the reset record. |
| Cron.Parse | src/app/app.ts:66-97 | The fields `parseCronExpression` assigns: the fields for the tokens of the trimmed, split text. ParseShape, ParseBlank and ParseSix/Five/OtherCount state what they are for every expression. |
| Cron.FieldsOf | src/app/app.ts:74-96 | The choice on the token count: six in order, five after a seconds of `"0"`, otherwise the reset record. ParseSixTokens, ParseFiveTokens and ParseOtherCount state it for every layout of the tokens. |
| Cron.ParseBlank | src/app/app.ts:67-69 | A blank or whitespace-only expression leaves all six fields equal to `""`. |
| Cron.ParseSixTokens | src/app/app.ts:74-83 | Six tokens, however they are spaced, become seconds, minutes, hours, days, month and dayOfWeek verbatim. |
| Cron.ParseFiveTokens | src/app/app.ts:84-93 | Five tokens set seconds to `"0"` and become minutes through dayOfWeek verbatim. |
| Cron.ParseOtherCount | src/app/app.ts:94-96 | Any other number of tokens resets every field to `""`. |
| Cron.ParseDefaultExpression | src/app/app.ts:31 | The default expression `0 */5 * * * *` splits into `0`, `*/5`, `*`, `*`, `*`, `*`. |
| Cron.ParseWithoutSeconds | src/app/app.ts:84-93 | `*/5 * * * *` gives the same fields as the default expression, with seconds `"0"`. |
| Numerals.DigitsValueOfNatText | src/app/app.ts:170 | `Number` applied to the decimal text of n gives back n. |
| Numerals.NatText | src/app/app.ts:170 | `toString` of a natural: non-empty and all digits, one digit exactly below 10 and at most two below 100. DigitsValueOfNatText reads it back. |
| Numerals.DigitsValue | src/app/app.ts:166 | `Number` applied to a string of digits. DigitsValueOfNatText makes it the inverse of `toString`, and DigitsValueLeadingZero shows that leading zeros do not count. |
| Numerals.DigitsValueLeadingZero | src/app/app.ts:166 | A leading `0` does not change the number a digit string reads as, so "09" reads as 9. |
| Numerals.PadStart2 | src/app/app.ts:170 | `padStart(2, "0")`: the result is at least two long, ends with the input, and is filled with zeros in front. |
| Numerals.IntText | src/app/app.ts:178 | The number's text, as `day + 'st'` writes it: for a non-negative number its digits read back as the number, and for a negative one a `-` is followed by digits that read back as its magnitude. |
| Numerals.PadStart2Value | src/app/app.ts:170 | Padding a digit string with `"0"` to two characters does not change the number it reads as. |
| Numerals.JsRem | src/app/app.ts:174-175 | JavaScript's `%` by a positive modulus is the usual remainder for non-negative numbers, and lies in (-m, 0] for negative ones. |
| Formatters.FormatTime | src/app/app.ts:163-171 | An unset time gives `"00:00"` with no period. Otherwise the text ends with a space and a period, and the period is "PM" exactly when the hour is 12 or more. |
| Formatters.WellFormedTime | src/app/app.ts:164-166 | The times the model formats: unset, or digits, one colon, digits, so that `split(":")` gives exactly an hour text and a minute text. |
| Formatters.Hours | src/app/app.ts:166 | The hour `Number` reads from the text before the colon. TimeFromParts gives its value for any digit strings. |
| Formatters.Minutes | src/app/app.ts:166 | The minute `Number` reads from the text after the colon. TimeFromParts gives its value for any digit strings. |
| Formatters.Clock12 | src/app/app.ts:167-170 | The 12-hour text of an hour and minute: it ends with a space and a period, and the period is PM exactly from hour 12. Clock12OfDay gives the full reading. |
| Formatters.DisplayHours | src/app/app.ts:168 | For an hour of the day, the hour on the 12-hour face lies between 1 and 12, and with the period it converts back to the 24-hour hour. |
| Formatters.Period | src/app/app.ts:167 | "PM" from hour 12 on, "AM" before. Clock12 and ClockReading state the period of the rendered text. |
| Formatters.FormatTimeOfDay | src/app/app.ts:166-170 | For hour 0..23 and minute 0..59 the result is an eight-character 12-hour reading. Both numbers are padded to two digits. The display hour is between 1 and 12. The minute is unchanged. The period is PM exactly from noon on. Converting the display hour and period back gives the 24-hour hour. |
| Formatters.Clock12OfDay | src/app/app.ts:167-170 | The same reading for the numbers read from a time. |
| Formatters.TimeFromParts | src/app/app.ts:166 | Digits, a colon and digits form a well-formed time. Its hour and minute are the values of the two digit strings. |
| Formatters.FormatTimeOfDigits | src/app/app.ts:166-170 | A time written "HH:MM" is rendered from the two-digit numbers it is written with. |
| Formatters.FormatMidnight | src/app/app.ts:163-171 | "00:00" becomes "12:00 AM". |
| Formatters.FormatNoon | src/app/app.ts:163-171 | "12:00" becomes "12:00 PM". |
| Formatters.FormatMinuteToMidnight | src/app/app.ts:163-171 | "23:59" becomes "11:59 PM". |
| Formatters.RenderMidnight | src/app/app.ts:167-170 | Hour 0 is displayed as 12 in the morning. |
| Formatters.RenderNoon | src/app/app.ts:167-170 | Hour 12 is displayed as 12 in the afternoon. |
| Formatters.RenderMinuteToMidnight | src/app/app.ts:167-170 | Hour 23 is displayed as 11 PM. |
| Formatters.RenderNineAm | src/app/app.ts:170 | A one-digit hour is padded with a zero: 09:00 AM. |
| Formatters.RenderHalfPastOnePm | src/app/app.ts:167-170 | Hour 13 is displayed as 01 PM. |
| Formatters.Ordinal | src/app/app.ts:173-187 | `addOrdinalSuffix`: the decimal text of the day, followed by one of "st", "nd", "rd" and "th". |
| Formatters.OrdinalIsEnglish | src/app/app.ts:173-187 | For a day that is not negative, the ordinal agrees with an independent English rule: "th" in the teens of every hundred (11, 12, 13, 111), otherwise "st", "nd" or "rd" for a last digit of 1, 2 or 3, and "th" for any other last digit. |
| Formatters.OrdinalOfNegative | src/app/app.ts:173-187 | Because `%` truncates, a negative day always takes "th". |
| Formatters.OrdinalReadsBack | src/app/app.ts:173-187 | The text before the suffix reads back as the day. |
| Formatters.OrdinalExamples | src/app/app.ts:173-187 | The ordinals 1st, 11th, 21st, 22nd, 13th and 17th. |
| Recurrence.NoneSelected | src/app/app.ts:136-140 | `filter`/`map` select no name exactly when no day is ticked. |
| Recurrence.SelectedNamesAppend | src/app/app.ts:136-138 | Selection distributes over concatenation, so the names keep the list's order. |
| Recurrence.SelectedNamesMembers | src/app/app.ts:136-138 | Every ticked day's name is selected, and every selected name belongs to a ticked day. |
| Recurrence.SelectedNames | src/app/app.ts:136-138 | `filter(selected).map(name)`: never more names than days. NoneSelected, SelectedNamesAppend and SelectedNamesMembers state which names appear, and in what order. |
| Recurrence.InitialSelection | src/app/app.ts:49-57 | In the initial seven-day list only Monday is ticked, so only "Monday" is selected. |
| Recurrence.JoinDays | src/app/app.ts:147-154 | The English list of one, two or more names. JoinDaysByLast equates it with the source's pop-then-join. |
| Recurrence.JoinDaysByLast | src/app/app.ts:147-154 | From two names on, the English list ("A and B", "A, B and C") is the ", "-join of all names but the last, then " and ", then the last name. Removing the last name with `pop` builds exactly this. |
| Recurrence.WeeklyNothingTicked | src/app/app.ts:140-143 | With no day ticked, the sentence is the guidance sentence, whatever the time. |
| Recurrence.WeeklyDescription | src/app/app.ts:135-155 | The weekly sentence, or the guidance sentence with nothing ticked. The time must be well formed only when some day is ticked, because the guidance sentence is returned before the time is formatted. WeeklyShape, WeeklyNothingTicked and WeeklyExample state it. |
| Recurrence.DailyDescription | src/app/app.ts:130-133 | The daily sentence around the formatted time. DailyShape and DailyAtNoon state it. |
| Recurrence.MonthlyDescription | src/app/app.ts:157-161 | The monthly sentence around the ordinal and the formatted time. MonthlyShape and MonthlyExample state it. |
| Recurrence.Describe | src/app/app.ts:114-128 | The switch on the pattern. It needs only the time of the selected pattern to be well formed, and the weekly time only when some day is ticked. DescribeEmptyOnlyIfUnknown states that only an unknown tag gives the empty text. |
| Recurrence.WeeklyShape | src/app/app.ts:135-155 | For any time when nothing is ticked, and for a well-formed time otherwise: the weekly text is the guidance sentence exactly when nothing is ticked. Otherwise it opens with "Runs every week on " and ends with a full stop. |
| Recurrence.WeeklyGuidanceExactly | src/app/app.ts:136-145 | The guidance sentence is returned exactly when no day is ticked. With nothing ticked, the time is never read. |
| Recurrence.WeeklyFrame | src/app/app.ts:145-154 | With some day ticked, the sentence opens with "Runs every week on " and ends with a full stop. |
| Recurrence.WeeklyExample | src/app/app.ts:135-155 | With Monday, Wednesday and Friday ticked, the days read "Monday, Wednesday and Friday", in list order. |
| Recurrence.MondayWednesdayFridaySelected | src/app/app.ts:49-57 | Ticking Wednesday and Friday in the initial list selects Monday, Wednesday and Friday, in that order. |
| Recurrence.ThreeDays | src/app/app.ts:151-153 | Three names are joined as "A, B and C". |
| Recurrence.WeeklyAtNineAm | src/app/app.ts:135-155 | Monday, Wednesday and Friday at 09:00 gives "Runs every week on Monday, Wednesday and Friday at 09:00 AM." |
| Recurrence.DescribeEmptyOnlyIfUnknown | src/app/app.ts:114-128 | The sentence is empty exactly when the pattern is not "Daily", "Weekly" or "Monthly". |
| Recurrence.DailyShape | src/app/app.ts:130-133 | The daily sentence opens with "Runs every day at " and ends with a full stop. |
| Recurrence.MonthlyShape | src/app/app.ts:157-161 | The monthly sentence opens with "Runs every month on the " and ends with a full stop. |
| Recurrence.DailyAtNoon | src/app/app.ts:130-133 | The default daily time, noon, gives "Runs every day at 12:00 PM." |
| Recurrence.MonthlyExample | src/app/app.ts:157-161 | The 17th at 13:30 gives "Runs every month on the 17th at 01:30 PM." |
| Component.App.constructor | src/app/app.ts:31-64 | The fields start at their defaults and the seven-day list is Monday to Sunday with Monday ticked. After one parse and one describe, the fields are the parse of the default expression and the sentence is the one the selected pattern calls for, replacing the placeholder "Runs every day at 12:00." the field starts with. |
| Component.App.ParseCronExpression | src/app/app.ts:66-97 | The fields become the parse of the current expression: cleared, six tokens in order, or "0" followed by five tokens. The pieces are the tokens of the trimmed expression split at runs of whitespace. No other field of the component changes. |
| Component.App.ResetParsedFields | src/app/app.ts:99-108 | All six fields become empty, and nothing else changes. |
| Component.App.GenerateDescription | src/app/app.ts:114-128 | The sentence becomes the one the selected pattern calls for. Only the sentence changes; in particular `daysOfWeek` and the parsed fields stay as they were. |
| Component.App.GenerateDailyDescription | src/app/app.ts:130-133 | The sentence becomes the daily sentence for the daily time. |
| Component.App.GenerateWeeklyDescription | src/app/app.ts:135-155 | The sentence becomes the weekly sentence: the ticked names in list order, joined by the one-, two- or many-name rule, or the guidance sentence. The weekly time must be well formed only when some day is ticked. The local copy is shortened by `pop`, so the component's list is not changed. |
| Component.App.GenerateMonthlyDescription | src/app/app.ts:157-161 | The sentence becomes the monthly sentence: the ordinal of the day and the formatted time. |
| Component.DefaultTimes | src/app/app.ts:43-45 | The default daily, weekly and monthly times are well-formed times. |
| Component.InitialState | src/app/app.ts:31-64 | For the values the constructor ensures (the default expression, the daily pattern at noon, and the parse and description made from them), the fields are `0`, `*/5`, `*`, `*`, `*`, `*`, and the sentence is "Runs every day at 12:00 PM.". |
| Component.Startup | src/app/app.ts:31-64 | Constructing the component yields the six fields `0`, `*/5`, `*`, `*`, `*`, `*` and the sentence "Runs every day at 12:00 PM.". |

## Left out

- Angular wiring is not modelled: the `@Component` decorator, the `title` signal, the router outlet, forms, templates and styles. It holds no logic.
- `onPatternChange` is not modelled, because it only calls `generateDescription`, which is modelled.
- `daysOfMonth` is not modelled. It is the constant list 1..31, used only to fill the form.
- Times are limited to well-formed ones (the `Valid` predicate of `App`): unset, or digits, one colon, digits. The formatter accepts more than this and the model does not cover it:
  - `"12:30:45"` formats as "12:30 PM", because destructuring ignores the third part.
  - `"12:"` formats as "12:00 PM" and `":30"` as "12:30 AM", because `Number("")` is 0.
  - `" 9:05"` reads hour 9, because `Number` ignores surrounding whitespace.
  - `"12"` throws a `TypeError` at `minutes.toString()`, because `minutes` is undefined.
  - Text that is not a number reads as `NaN`, and the model covers neither `NaN` nor floating-point or negative values through `padStart`.
- Only the time the selected pattern formats must be well formed (`Valid()` of `App`, the `requires` of `Describe` and each `Generate*Description` method). The times of the other patterns are never read. The weekly time is needed only when some day is ticked, because the guidance sentence is returned before that time is formatted.
- Whitespace is the four characters space, tab, line feed and carriage return. JavaScript's `\s` and `trim()` also match vertical tab (U+000B), form feed (U+000C), no-break space (U+00A0), the byte order mark (U+FEFF), the line and paragraph separators (U+2028, U+2029) and the other Unicode space separators (U+1680, U+2000–U+200A, U+202F, U+205F, U+3000). None of these is treated as whitespace by the model.
- `parts[i] || ''` is the identity on the pieces of a split, since a piece is a string. It is modelled as the piece itself.
- Numbers are unbounded integers. The day of the month is any integer, not a JavaScript double.
- Formatters.FormatTimeOfDay: the full 12-hour reading is stated only for hours 0..23 and minutes 0..59. Times outside that range are still formatted by `FormatTime`, but only its period property is stated for them.
- Numerals.JsRem: only the sign and range of the remainder are stated for negative dividends, not the congruence.
- The examples (FormatMidnight, ParseDefaultExpression, WeeklyAtNineAm and the others) take their literal inputs as parameters fixed by the precondition.

=== FILE: app.dfy ===
/**
 * The App component: a cron expression evaluator that splits the
 * expression typed into the form into its named fields, and a recurrence
 * pattern generator that writes an English sentence for the daily, weekly
 * or monthly pattern chosen in the form.  The form's two-way bindings
 * write the input fields; the methods below update parsedFields and
 * generatedDescription in place.
 */
module Component {
  import opened Text
  import opened Formatters
  import opened Cron
  import opened Recurrence

  class App {
    // Cron expression evaluator
    var cronExpression: string
    var parsedFields: ParsedFields

    // Recurrence pattern generator
    var selectedPattern: string
    var dailyTime: string
    var weeklyTime: string
    var monthlyTime: string
    var selectedDayOfMonth: int
    var generatedDescription: string
    var daysOfWeek: seq<DayOfWeek>

    /**
     * The time of the selected pattern is unset or "digits:digits", as the
     * time inputs produce it; the times of the other patterns are not read,
     * and the weekly time is read only when some day is ticked.
     */
    predicate Valid()
      reads this
    {
      SelectedTimeWellFormed(selectedPattern, dailyTime, weeklyTime, monthlyTime, daysOfWeek)
    }

    /**
     * The form's initial inputs: the default expression (every five minutes,
     * at second 0), the daily pattern at noon, 01:00 for the weekly and
     * monthly times, the 17th, and Monday the only ticked day.
     */
    predicate InitialInputs()
      reads this`cronExpression, this`selectedPattern, this`dailyTime, this`weeklyTime, this`monthlyTime,
            this`selectedDayOfMonth, this`daysOfWeek
    {
      cronExpression == "0 */5 * * * *" &&
      selectedPattern == "Daily" && dailyTime == "12:00" &&
      weeklyTime == "01:00" && monthlyTime == "01:00" && selectedDayOfMonth == 17 &&
      daysOfWeek == InitialDaysOfWeek
    }

    /** The sentence the selected pattern calls for with the current inputs. */
    function Description(): string
      reads this
      requires Valid()
    {
      Describe(selectedPattern, dailyTime, weeklyTime, monthlyTime, selectedDayOfMonth, daysOfWeek)
    }


    /**
     * The initial form: the default expression is split and the default
     * daily sentence is generated straight away, replacing the placeholder
     * sentence the field starts with.
     */
    constructor()
      ensures InitialInputs()
      ensures Valid()
      ensures parsedFields == Parse(cronExpression)
      ensures generatedDescription == Description()
    {
      cronExpression := "0 */5 * * * *";
      parsedFields := Cleared;
      selectedPattern := "Daily";
      dailyTime := "12:00";
      weeklyTime := "01:00";
      monthlyTime := "01:00";
      selectedDayOfMonth := 17;
      generatedDescription := "Runs every day at 12:00.";
      daysOfWeek := InitialDaysOfWeek;
      new;
      assert InitialInputs();
      DefaultTimes(dailyTime, weeklyTime, monthlyTime);
      ParseCronExpression();
      GenerateDescription();
    }

    /**
     * Splits cronExpression into the six fields: blank text clears them,
     * six tokens fill them in order, five tokens fill all but seconds,
     * which becomes "0", and any other count clears them.
     */
    method ParseCronExpression()
      modifies this`parsedFields
      ensures parsedFields == Parse(cronExpression)
      ensures unchanged(this`cronExpression, this`selectedPattern, this`dailyTime, this`weeklyTime, this`monthlyTime,
                        this`selectedDayOfMonth, this`daysOfWeek, this`generatedDescription)
    {
      if Trim(cronExpression) == "" {
        ParseBlank(cronExpression);
        ResetParsedFields();
        return;
      }

      var parts := Tokens(cronExpression);

      if |parts| == 6 {
        parsedFields := ParsedFields(parts[0], parts[1], parts[2], parts[3], parts[4], parts[5]);
      } else if |parts| == 5 {
        parsedFields := ParsedFields("0", parts[0], parts[1], parts[2], parts[3], parts[4]);
      } else {
        ResetParsedFields();
      }
    }

    /** Every field becomes the empty text. */
    method ResetParsedFields()
      modifies this`parsedFields
      ensures parsedFields == Cleared && parsedFields.AllEmpty()
      ensures unchanged(this`cronExpression, this`selectedPattern, this`dailyTime, this`weeklyTime, this`monthlyTime,
                        this`selectedDayOfMonth, this`daysOfWeek, this`generatedDescription)
    {
      parsedFields := ParsedFields("", "", "", "", "", "");
    }

    /** Writes the sentence for the selected pattern; nothing but the sentence changes. */
    method GenerateDescription()
      requires Valid()
      modifies this`generatedDescription
      ensures generatedDescription == Description()
      ensures unchanged(this`cronExpression, this`selectedPattern, this`dailyTime, this`weeklyTime, this`monthlyTime,
                        this`selectedDayOfMonth, this`daysOfWeek, this`parsedFields)
    {
      if selectedPattern == "Daily" {
        GenerateDailyDescription();
      } else if selectedPattern == "Weekly" {
        GenerateWeeklyDescription();
      } else if selectedPattern == "Monthly" {
        GenerateMonthlyDescription();
      } else {
        generatedDescription := "";
      }
    }

    method GenerateDailyDescription()
      requires WellFormedTime(dailyTime)
      modifies this`generatedDescription
      ensures generatedDescription == DailyDescription(dailyTime)
    {
      var time := FormatTime(dailyTime);
      generatedDescription := "Runs every day at " + time + ".";
    }

    /**
     * The ticked days in list order: one is named alone, two are joined by
     * " and ", and from three on the last is taken off, the others are
     * joined by ", " and the last follows " and ".
     */
    method GenerateWeeklyDescription()
      requires SelectedNames(daysOfWeek) != [] ==> WellFormedTime(weeklyTime)
      modifies this`generatedDescription
      ensures generatedDescription == WeeklyDescription(daysOfWeek, weeklyTime)
    {
      var selectedDays := SelectedNames(daysOfWeek);

      if |selectedDays| == 0 {
        generatedDescription := NoDaySelected;
        return;
      }

      var time := FormatTime(weeklyTime);

      // The three sentences differ only in the list of days.
      var dayList;
      if |selectedDays| == 1 {
        dayList := selectedDays[0];
      } else if |selectedDays| == 2 {
        JoinPair(selectedDays, " and ");
        dayList := Join(selectedDays, " and ");
      } else {
        JoinDaysByLast(selectedDays);
        var lastDay := selectedDays[|selectedDays| - 1];
        ghost var names := selectedDays;
        selectedDays := selectedDays[..|selectedDays| - 1];
        dayList := Join(selectedDays, ", ") + " and " + lastDay;
        assert dayList == JoinDays(names);
      }
      generatedDescription := "Runs every week on " + dayList + " at " + time + ".";
    }

    method GenerateMonthlyDescription()
      requires WellFormedTime(monthlyTime)
      modifies this`generatedDescription
      ensures generatedDescription == MonthlyDescription(selectedDayOfMonth, monthlyTime)
    {
      var time := FormatTime(monthlyTime);
      var dayWithSuffix := Ordinal(selectedDayOfMonth);
      generatedDescription := "Runs every month on the " + dayWithSuffix + " at " + time + ".";
    }
  }

  /** Constructing the component splits the default expression and describes noon daily. */
  method Startup() returns (fields: ParsedFields, sentence: string)
    ensures fields == ParsedFields("0", "*/5", "*", "*", "*", "*")
    ensures sentence == "Runs every day at 12:00 PM."
  {
    var app := new App();
    InitialState(app.cronExpression, app.dailyTime, app.weeklyTime, app.monthlyTime,
                 app.parsedFields, app.generatedDescription);
    fields, sentence := app.parsedFields, app.generatedDescription;
  }

  /** The default times are well formed. */
  lemma DefaultTimes(dailyTime: string, weeklyTime: string, monthlyTime: string)
    requires dailyTime == "12:00" && weeklyTime == "01:00" && monthlyTime == "01:00"
    ensures WellFormedTime(dailyTime) && WellFormedTime(weeklyTime) && WellFormedTime(monthlyTime)
  {
    TimeFromParts("12", "00");
    assert "12" + ":" + "00" == dailyTime;
    TimeFromParts("01", "00");
    assert "01" + ":" + "00" == weeklyTime;
  }

  /**
   * Right after construction the fields hold the default expression's six
   * fields and the sentence is the daily one for noon.
   */
  lemma InitialState(cronExpression: string, dailyTime: string, weeklyTime: string, monthlyTime: string,
                     parsedFields: ParsedFields, generatedDescription: string)
    requires cronExpression == "0 */5 * * * *" && dailyTime == "12:00"
    requires weeklyTime == "01:00" && monthlyTime == "01:00"
    requires WellFormedTime(dailyTime)
    requires parsedFields == Parse(cronExpression)
    requires generatedDescription == Describe("Daily", dailyTime, weeklyTime, monthlyTime, 17, InitialDaysOfWeek)
    ensures parsedFields == ParsedFields("0", "*/5", "*", "*", "*", "*")
    ensures generatedDescription == "Runs every day at 12:00 PM."
  {
    ParseDefaultExpression(cronExpression);
    DailyAtNoon(dailyTime);
  }
}

=== FILE: cron.dfy ===
/**
 * The cron field splitter: a cron expression is cut into whitespace
 * separated tokens, and five or six of them are assigned, in position
 * order, to the six named fields.  Token content is never inspected.
 */
module Cron {
  import opened Text

  /** The six fields of a cron expression (the ParsedFields record). */
  datatype ParsedFields = ParsedFields(
    seconds: string,
    minutes: string,
    hours: string,
    days: string,
    month: string,
    dayOfWeek: string)
  {
    predicate AllEmpty() {
      seconds == "" && minutes == "" && hours == "" &&
      days == "" && month == "" && dayOfWeek == ""
    }

    predicate AllFilled() {
      seconds != "" && minutes != "" && hours != "" &&
      days != "" && month != "" && dayOfWeek != ""
    }
  }

  /** The reset state, which also signals an expression that could not be split into fields. */
  const Cleared := ParsedFields("", "", "", "", "", "")

  /**
   * The fields for the pieces of an expression: six pieces fill the fields
   * in order; five pieces are the form without seconds, so seconds is "0"
   * and the pieces fill the other five; any other count clears every field.
   */
  function FieldsOf(parts: seq<string>): ParsedFields {
    if |parts| == 6 then ParsedFields(parts[0], parts[1], parts[2], parts[3], parts[4], parts[5])
    else if |parts| == 5 then ParsedFields("0", parts[0], parts[1], parts[2], parts[3], parts[4])
    else Cleared
  }

  /** The fields parseCronExpression assigns for an expression. */
  function Parse(expression: string): ParsedFields {
    FieldsOf(Tokens(expression))
  }

  /**
   * The fields are either all empty or all filled; they are filled exactly
   * when the expression has five or six tokens, and all empty exactly when
   * they are the cleared record.
   */
  lemma ParseShape(expression: string)
    ensures var f := Parse(expression);
      (f.AllEmpty() || f.AllFilled()) &&
      (f.AllFilled() <==> |Tokens(expression)| == 5 || |Tokens(expression)| == 6) &&
      (f.AllEmpty() <==> f == Cleared)
  {
    var t := Tokens(expression);
    if |t| == 5 || |t| == 6 {
      assert t[0] != "" && t[1] != "" && t[2] != "" && t[3] != "" && t[4] != "";
    }
  }

  /** A blank or whitespace-only expression clears every field. */
  lemma ParseBlank(expression: string)
    requires Blank(expression)
    ensures Parse(expression) == Cleared
  {
  }

  /**
   * Six tokens, with any whitespace around and between them, become the
   * fields seconds, minutes, hours, days, month and dayOfWeek verbatim.
   */
  lemma ParseSixTokens(lead: string, words: seq<string>, gaps: seq<string>, trail: string)
    requires Blank(lead) && Blank(trail) && WellSpaced(words, gaps) && |words| == 6
    ensures Parse(lead + Spread(words, gaps) + trail) ==
      ParsedFields(words[0], words[1], words[2], words[3], words[4], words[5])
  {
    TokensOfLayout(lead, words, gaps, trail);
  }

  /**
   * Five tokens are the form without seconds: seconds is "0" and the tokens
   * become minutes, hours, days, month and dayOfWeek verbatim.
   */
  lemma ParseFiveTokens(lead: string, words: seq<string>, gaps: seq<string>, trail: string)
    requires Blank(lead) && Blank(trail) && WellSpaced(words, gaps) && |words| == 5
    ensures Parse(lead + Spread(words, gaps) + trail) ==
      ParsedFields("0", words[0], words[1], words[2], words[3], words[4])
  {
    TokensOfLayout(lead, words, gaps, trail);
  }

  /** Any other number of tokens clears every field. */
  lemma ParseOtherCount(lead: string, words: seq<string>, gaps: seq<string>, trail: string)
    requires Blank(lead) && Blank(trail) && WellSpaced(words, gaps)
    requires |words| != 5 && |words| != 6
    ensures Parse(lead + Spread(words, gaps) + trail) == Cleared
  {
    TokensOfLayout(lead, words, gaps, trail);
  }

  /** The component's default expression. */
  lemma ParseDefaultExpression(expression: string)
    requires expression == "0 */5 * * * *"
    ensures Parse(expression) == ParsedFields("0", "*/5", "*", "*", "*", "*")
  {
    DefaultLayout(expression, ["0", "*/5", "*", "*", "*", "*"], [" ", " ", " ", " ", " "]);
    assert "" + expression + "" == expression;
    ParseSixTokens("", ["0", "*/5", "*", "*", "*", "*"], [" ", " ", " ", " ", " "], "");
  }

  /** The same schedule written without seconds. */
  lemma ParseWithoutSeconds(expression: string)
    requires expression == "*/5 * * * *"
    ensures Parse(expression) == ParsedFields("0", "*/5", "*", "*", "*", "*")
  {
    EveryFiveLayout(expression, ["*/5", "*", "*", "*", "*"], [" ", " ", " ", " "]);
    assert "" + expression + "" == expression;
    ParseFiveTokens("", ["*/5", "*", "*", "*", "*"], [" ", " ", " ", " "], "");
  }

  lemma DefaultLayout(expression: string, words: seq<string>, gaps: seq<string>)
    requires expression == "0 */5 * * * *"
    requires words == ["0", "*/5", "*", "*", "*", "*"] && gaps == [" ", " ", " ", " ", " "]
    ensures WellSpaced(words, gaps) && Spread(words, gaps) == expression
  {
    EveryFiveLayout(expression[2..], words[1..], gaps[1..]);
    assert WellSpaced(words, gaps);
    SpreadTail(words, gaps);
    assert expression == "0" + " " + expression[2..];
  }

  lemma EveryFiveLayout(expression: string, words: seq<string>, gaps: seq<string>)
    requires expression == "*/5 * * * *"
    requires words == ["*/5", "*", "*", "*", "*"] && gaps == [" ", " ", " ", " "]
    ensures WellSpaced(words, gaps) && Spread(words, gaps) == expression
  {
    assert WellSpaced(words, gaps);
    SpreadOfFive(words, gaps);
  }

  /** Five words laid out with their four gaps, written out. */
  lemma SpreadOfFive(words: seq<string>, gaps: seq<string>)
    requires WellSpaced(words, gaps) && |words| == 5
    ensures Spread(words, gaps) ==
      words[0] + (gaps[0] + (words[1] + (gaps[1] + (words[2] + (gaps[2] + (words[3] + (gaps[3] + words[4])))))))
  {
    SpreadTail(words, gaps);
    SpreadTail(words[1..], gaps[1..]);
    SpreadTail(words[2..], gaps[2..]);
    SpreadTail(words[3..], gaps[3..]);
  }
}

=== FILE: formatters.dfy ===
/**
 * The two helpers the recurrence describer uses: the 24-hour to 12-hour
 * time formatter and the English ordinal formatter for a day of the month.
 */
module Formatters {
  import opened Numerals

  /** Index of the first occurrence of c in s, or |s| when there is none. */
  function IndexOf(s: string, c: char): (i: nat)
    ensures i <= |s|
    ensures i < |s| ==> s[i] == c
    ensures forall k :: 0 <= k < i ==> s[k] != c
    decreases |s|
  {
    if s == "" || s[0] == c then 0 else 1 + IndexOf(s[1..], c)
  }

  /**
   * The times the formatter is given: unset (the empty string) or
   * digits, one colon, digits ("14:05", "9:5").  Then time.split(":")
   * yields exactly the hour text and the minute text.
   */
  predicate WellFormedTime(time: string) {
    time == "" ||
    (var i := IndexOf(time, ':');
     0 < i < |time| - 1 && AllDigits(time[..i]) && AllDigits(time[i + 1..]))
  }

  /** The hour and minute read by Number() from the two sides of the colon. */
  function Hours(time: string): nat
    requires WellFormedTime(time) && time != ""
  {
    DigitsValue(time[..IndexOf(time, ':')])
  }

  function Minutes(time: string): nat
    requires WellFormedTime(time) && time != ""
  {
    DigitsValue(time[IndexOf(time, ':') + 1..])
  }

  /**
   * formatTime: "HH:MM" on the 24-hour clock to "hh:mm AM" or "hh:mm PM"
   * on the 12-hour clock; an unset time gives "00:00" with no period.
   */
  function FormatTime(time: string): (r: string)
    requires WellFormedTime(time)
    ensures time == "" ==> r == "00:00"
    ensures time != "" ==>
      |r| >= 8 && r[|r| - 3] == ' ' &&
      (r[|r| - 2..] == "PM" <==> Hours(time) >= 12) &&
      (r[|r| - 2..] == "AM" <==> Hours(time) < 12)
  {
    if time == "" then "00:00" else Clock12(Hours(time), Minutes(time))
  }

  /** The 12-hour rendering of the hour and minute read from a time. */
  function Clock12(hours: nat, minutes: nat): (r: string)
    ensures |r| >= 8 && r[|r| - 3] == ' '
    ensures r[|r| - 2..] == (if hours >= 12 then "PM" else "AM")
  {
    PadStart2(NatText(DisplayHours(hours))) + ":" + PadStart2(NatText(minutes)) + " " + Period(hours)
  }

  /** The hour on the 12-hour clock face: 12 for hour 0, the hour less 12 after noon. */
  function DisplayHours(hours: nat): (d: nat)
    ensures hours < 24 ==> 1 <= d <= 12 && To24(d, hours >= 12) == hours
  {
    if hours == 0 then 12 else if hours > 12 then hours - 12 else hours
  }

  function Period(hours: nat): string {
    if hours >= 12 then "PM" else "AM"
  }

  /** A time written as hour digits, a colon and minute digits is well formed, and reads as those numbers. */
  lemma TimeFromParts(hh: string, mm: string)
    requires hh != "" && mm != "" && AllDigits(hh) && AllDigits(mm)
    ensures WellFormedTime(hh + ":" + mm)
    ensures Hours(hh + ":" + mm) == DigitsValue(hh) && Minutes(hh + ":" + mm) == DigitsValue(mm)
  {
    var t := hh + ":" + mm;
    IndexOfAfterDigits(hh, mm);
    assert t[..|hh|] == hh && t[|hh| + 1..] == mm;
  }

  /** Formatting a time written "HH:MM" renders the two-digit numbers it is written with. */
  lemma FormatTimeOfDigits(time: string, hh: string, mm: string, hours: nat, minutes: nat)
    requires time == hh + ":" + mm
    requires |hh| == 2 && |mm| == 2 && AllDigits(hh) && AllDigits(mm)
    requires DigitValue(hh[0]) * 10 + DigitValue(hh[1]) == hours
    requires DigitValue(mm[0]) * 10 + DigitValue(mm[1]) == minutes
    ensures WellFormedTime(time)
    ensures FormatTime(time) == Clock12(hours, minutes)
  {
    TimeFromParts(hh, mm);
    TwoDigitValue(hh);
    TwoDigitValue(mm);
  }

  /** "00:00" is midnight, 12 in the morning. */
  lemma FormatMidnight(time: string)
    requires time == "00:00"
    ensures WellFormedTime(time) && FormatTime(time) == "12:00 AM"
  {
    FormatTimeOfDigits(time, "00", "00", 0, 0);
    RenderMidnight();
  }

  /** "12:00" is noon, 12 in the afternoon. */
  lemma FormatNoon(time: string)
    requires time == "12:00"
    ensures WellFormedTime(time) && FormatTime(time) == "12:00 PM"
  {
    FormatTimeOfDigits(time, "12", "00", 12, 0);
    RenderNoon();
  }

  /** "23:59" is one minute to midnight. */
  lemma FormatMinuteToMidnight(time: string)
    requires time == "23:59"
    ensures WellFormedTime(time) && FormatTime(time) == "11:59 PM"
  {
    FormatTimeOfDigits(time, "23", "59", 23, 59);
    RenderMinuteToMidnight();
  }

  /** Midnight is 12 in the morning. */
  lemma RenderMidnight()
    ensures Clock12(0, 0) == "12:00 AM"
  {
    assert NatText(12) == "12" && NatText(0) == "0";
  }

  /** Noon is 12 in the afternoon. */
  lemma RenderNoon()
    ensures Clock12(12, 0) == "12:00 PM"
  {
    assert NatText(12) == "12" && NatText(0) == "0";
  }

  /** One minute to midnight. */
  lemma RenderMinuteToMidnight()
    ensures Clock12(23, 59) == "11:59 PM"
  {
    assert DisplayHours(23) == 11 && Period(23) == "PM";
    assert Clock12(23, 59) == PadStart2(NatText(11)) + ":" + PadStart2(NatText(59)) + " " + "PM";
    assert NatText(11) == "11" && NatText(59) == "59";
    assert PadStart2("11") == "11" && PadStart2("59") == "59";
  }

  /** A single-digit hour is padded to two digits. */
  lemma RenderNineAm()
    ensures Clock12(9, 0) == "09:00 AM"
  {
    assert NatText(9) == "9" && NatText(0) == "0";
  }

  /** Half past one in the afternoon. */
  lemma RenderHalfPastOnePm()
    ensures Clock12(13, 30) == "01:30 PM"
  {
    assert NatText(30) == NatText(3) + "0" == "30";
    assert PadStart2("1") + ":" + PadStart2("30") + " " + "PM" == "01:30 PM";
  }

  lemma {:induction false} IndexOfAfterDigits(hh: string, mm: string)
    requires AllDigits(hh)
    ensures IndexOf(hh + ":" + mm, ':') == |hh|
    decreases |hh|
  {
    if hh != "" {
      assert (hh + ":" + mm)[1..] == hh[1..] + ":" + mm;
      IndexOfAfterDigits(hh[1..], mm);
    }
  }

  /** Reads a 12-hour clock hour and its period back as a 24-hour clock hour. */
  function To24(displayHours: nat, pm: bool): nat {
    if pm then (if displayHours == 12 then 12 else displayHours + 12)
    else (if displayHours == 12 then 0 else displayHours)
  }

  /**
   * r is the 12-hour reading "hh:mm AM" or "hh:mm PM" of hours:minutes:
   * eight characters, both numbers padded to two digits, the hour between 1
   * and 12, the minute unchanged, the period "PM" exactly in the afternoon,
   * and the 12-hour reading converts back to the 24-hour hour.
   */
  predicate ClockReading(r: string, hours: nat, minutes: nat) {
    |r| == 8 && r[2] == ':' && r[5] == ' ' &&
    AllDigits(r[..2]) && AllDigits(r[3..5]) &&
    1 <= DigitsValue(r[..2]) <= 12 &&
    DigitsValue(r[3..5]) == minutes &&
    r[6..] == (if hours >= 12 then "PM" else "AM") &&
    To24(DigitsValue(r[..2]), r[6..] == "PM") == hours
  }

  /** For a time of day (hour 0..23, minute 0..59) the result is its 12-hour reading. */
  lemma FormatTimeOfDay(time: string)
    requires WellFormedTime(time) && time != ""
    requires Hours(time) < 24 && Minutes(time) < 60
    ensures ClockReading(FormatTime(time), Hours(time), Minutes(time))
  {
    Clock12OfDay(Hours(time), Minutes(time));
  }

  lemma Clock12OfDay(hours: nat, minutes: nat)
    requires hours < 24 && minutes < 60
    ensures ClockReading(Clock12(hours, minutes), hours, minutes)
  {
    TwoDigits(DisplayHours(hours));
    TwoDigits(minutes);
    ClockFields(Clock12(hours, minutes), PadStart2(NatText(DisplayHours(hours))), PadStart2(NatText(minutes)),
                Period(hours), hours, minutes);
  }

  /** A number below 100 padded to two digits reads back as itself. */
  lemma TwoDigits(n: nat)
    requires n < 100
    ensures var s := PadStart2(NatText(n)); |s| == 2 && AllDigits(s) && DigitsValue(s) == n
  {
    PadStart2Value(NatText(n));
    DigitsValueOfNatText(n);
  }

  lemma ClockFields(r: string, hh: string, mm: string, period: string, hours: nat, minutes: nat)
    requires hours < 24
    requires r == hh + ":" + mm + " " + period
    requires |hh| == 2 && AllDigits(hh) && |mm| == 2 && AllDigits(mm)
    requires DigitsValue(hh) == DisplayHours(hours)
    requires DigitsValue(mm) == minutes
    requires period == Period(hours)
    ensures ClockReading(r, hours, minutes)
  {
    assert r[..2] == hh;
    assert r[3..5] == mm;
    assert r[6..] == period;
  }

  /** The suffix an English speaker writes after n: "th" for the teens 11 to 19. */
  function EnglishSuffix(n: nat): string {
    if (n / 10) % 10 == 1 then "th"
    else if n % 10 == 1 then "st"
    else if n % 10 == 2 then "nd"
    else if n % 10 == 3 then "rd"
    else "th"
  }

  /** addOrdinalSuffix: the decimal text of day followed by its ordinal suffix. */
  function Ordinal(day: int): (r: string)
    ensures |r| >= 3 && r[..|r| - 2] == IntText(day)
    ensures r[|r| - 2..] in {"st", "nd", "rd", "th"}
  {
    var j := JsRem(day, 10);
    var k := JsRem(day, 100);
    var suffix :=
      if j == 1 && k != 11 then "st"
      else if j == 2 && k != 12 then "nd"
      else if j == 3 && k != 13 then "rd"
      else "th";
    IntText(day) + suffix
  }

  /**
   * For a day that is not negative the ordinal is its decimal text and the
   * English suffix: the last digit picks "st", "nd" or "rd", except in the
   * teens of each hundred.
   */
  lemma OrdinalIsEnglish(day: nat)
    ensures Ordinal(day) == NatText(day) + EnglishSuffix(day)
  {
    TensAndUnits(day);
  }

  /** The remainder by 100 is made of the tens digit and the units digit. */
  lemma TensAndUnits(n: nat)
    ensures n % 100 == (n / 10) % 10 * 10 + n % 10
  {
    var q := n / 10;
    assert n == 10 * q + n % 10;
    assert q == 10 * (q / 10) + q % 10;
    assert n == 100 * (q / 10) + ((q % 10) * 10 + n % 10);
  }

  /** With the truncating remainder, a negative day always takes "th" ("-1th"). */
  lemma OrdinalOfNegative(day: int)
    requires day < 0
    ensures Ordinal(day) == "-" + NatText(-day) + "th"
  {
  }

  /** The decimal text in front of the suffix reads back as the day. */
  lemma OrdinalReadsBack(day: nat)
    ensures var r := Ordinal(day);
      AllDigits(r[..|r| - 2]) && DigitsValue(r[..|r| - 2]) == day
  {
    DigitsValueOfNatText(day);
  }

  /** 1st, 11th, 21st, 22nd, 13th and 17th. */
  lemma OrdinalExamples()
    ensures Ordinal(1) == "1st" && Ordinal(11) == "11th" && Ordinal(21) == "21st"
    ensures Ordinal(22) == "22nd" && Ordinal(13) == "13th" && Ordinal(17) == "17th"
  {
    OrdinalOfSmall(1);
    OrdinalOfSmall(11);
    OrdinalOfSmall(21);
    OrdinalOfSmall(22);
    OrdinalOfSmall(13);
    OrdinalOfSmall(17);
  }

  lemma OrdinalOfSmall(day: nat)
    requires 10 <= day < 100 || day < 10
    ensures Ordinal(day) == (if day < 10 then [DigitChar(day)] else [DigitChar(day / 10), DigitChar(day % 10)]) + EnglishSuffix(day)
  {
    OrdinalIsEnglish(day);
    if day >= 10 {
      assert NatText(day / 10) == [DigitChar(day / 10)];
    }
  }
}

=== FILE: numerals.dfy ===
/**
 * Decimal numerals as JavaScript produces and reads them for the small
 * integers the time and ordinal formatters handle: Number.prototype.toString,
 * Number applied to a string of decimal digits, String.prototype.padStart
 * with "0", and the remainder operator %, which truncates toward zero.
 */
module Numerals {

  predicate IsDigit(c: char) {
    '0' <= c <= '9'
  }

  predicate AllDigits(s: string) {
    forall i :: 0 <= i < |s| ==> IsDigit(s[i])
  }

  function DigitChar(d: nat): (c: char)
    requires d < 10
    ensures IsDigit(c)
  {
    (('0' as int) + d) as char
  }

  function DigitValue(c: char): (d: nat)
    requires IsDigit(c)
    ensures d < 10 && DigitChar(d) == c
  {
    (c as int) - ('0' as int)
  }

  /** The decimal text of n, with no leading zero: Number.prototype.toString. */
  function NatText(n: nat): (s: string)
    ensures s != "" && AllDigits(s)
    ensures |s| == 1 <==> n < 10
    ensures n < 100 ==> |s| <= 2
    decreases n
  {
    if n < 10 then [DigitChar(n)] else NatText(n / 10) + [DigitChar(n % 10)]
  }

  /**
   * The decimal text of i, with a leading "-" when it is negative: the
   * digits after the sign read back as the magnitude of i.
   */
  function IntText(i: int): (s: string)
    ensures s != ""
    ensures i >= 0 ==> AllDigits(s) && DigitsValue(s) == i
    ensures i < 0 ==> s[0] == '-' && AllDigits(s[1..]) && DigitsValue(s[1..]) == -i
  {
    if i < 0 then
      DigitsValueOfNatText(-i);
      var s := "-" + NatText(-i);
      assert s[1..] == NatText(-i);
      s
    else
      DigitsValueOfNatText(i);
      NatText(i)
  }

  /** The value of a string of decimal digits, leading zeros allowed: Number(s). */
  function DigitsValue(s: string): nat
    requires AllDigits(s)
    decreases |s|
  {
    if s == "" then 0 else DigitsValue(s[..|s| - 1]) * 10 + DigitValue(s[|s| - 1])
  }

  /** Reading back the decimal text of n gives n. */
  lemma {:induction false} DigitsValueOfNatText(n: nat)
    ensures DigitsValue(NatText(n)) == n
    decreases n
  {
    var s := NatText(n);
    if n >= 10 {
      DigitsValueOfNatText(n / 10);
      assert s[..|s| - 1] == NatText(n / 10);
      assert DigitValue(s[|s| - 1]) == n % 10 by {
        assert s[|s| - 1] == DigitChar(n % 10);
      }
    } else {
      assert s[..0] == "";
      assert DigitChar(DigitValue(s[0])) == DigitChar(n);
    }
  }

  /** A leading zero does not change the value of a digit string. */
  lemma {:induction false} DigitsValueLeadingZero(s: string)
    requires AllDigits(s)
    ensures AllDigits("0" + s) && DigitsValue("0" + s) == DigitsValue(s)
    decreases |s|
  {
    var z := "0" + s;
    if s == "" {
      assert z[..0] == "";
    } else {
      assert z[..|z| - 1] == "0" + s[..|s| - 1];
      DigitsValueLeadingZero(s[..|s| - 1]);
    }
  }

  /** The value of a two-digit string. */
  lemma TwoDigitValue(s: string)
    requires |s| == 2 && AllDigits(s)
    ensures DigitsValue(s) == DigitValue(s[0]) * 10 + DigitValue(s[1])
  {
    var a := s[..1];
    assert a[..0] == "" && a[0] == s[0];
    assert DigitsValue(a) == DigitValue(s[0]);
  }

  /** String.prototype.padStart(2, "0"). */
  function PadStart2(s: string): (r: string)
    ensures |r| == if |s| < 2 then 2 else |s|
    ensures r[|r| - |s|..] == s
    ensures forall i :: 0 <= i < |r| - |s| ==> r[i] == '0'
  {
    if |s| == 0 then "00" else if |s| == 1 then "0" + s else s
  }

  /** Padding a digit string keeps its value. */
  lemma PadStart2Value(s: string)
    requires AllDigits(s)
    ensures AllDigits(PadStart2(s)) && DigitsValue(PadStart2(s)) == DigitsValue(s)
  {
    if |s| == 0 {
      DigitsValueLeadingZero("0");
    } else if |s| == 1 {
      DigitsValueLeadingZero(s);
    }
  }

  /** The JavaScript remainder a % m for m > 0: it takes the sign of a. */
  function JsRem(a: int, m: int): (r: int)
    requires m > 0
    ensures a >= 0 ==> r == a % m && 0 <= r < m
    ensures a < 0 ==> -m < r <= 0
  {
    if a >= 0 then a % m else -((-a) % m)
  }
}

=== FILE: recurrence.dfy ===
/**
 * The recurrence describer: the daily, weekly and monthly sentences and the
 * dispatch on the selected pattern.  The weekly sentence lists the ticked
 * days of the week in display order, joined into an English list.
 */
module Recurrence {
  import opened Text
  import opened Formatters

  /** A day of the week as the form shows it: its name, whether it is ticked, its cron number. */
  datatype DayOfWeek = DayOfWeek(name: string, selected: bool, value: int)

  /** The initial daysOfWeek list: Monday to Sunday, cron numbers with Sunday 0, Monday ticked. */
  const InitialDaysOfWeek: seq<DayOfWeek> := [
    DayOfWeek("Monday", true, 1),
    DayOfWeek("Tuesday", false, 2),
    DayOfWeek("Wednesday", false, 3),
    DayOfWeek("Thursday", false, 4),
    DayOfWeek("Friday", false, 5),
    DayOfWeek("Saturday", false, 6),
    DayOfWeek("Sunday", false, 0)
  ]

  /** The guidance sentence shown for a weekly pattern with no day ticked. */
  const NoDaySelected := "Please select at least one day of the week."

  /**
   * daysOfWeek.filter(day => day.selected).map(day => day.name): the names
   * of the ticked days, in list order.
   */
  function SelectedNames(days: seq<DayOfWeek>): (names: seq<string>)
    ensures |names| <= |days|
    decreases |days|
  {
    if days == [] then []
    else (if days[0].selected then [days[0].name] else []) + SelectedNames(days[1..])
  }

  /** No name is selected exactly when no day is ticked. */
  lemma {:induction false} NoneSelected(days: seq<DayOfWeek>)
    ensures SelectedNames(days) == [] <==> forall i :: 0 <= i < |days| ==> !days[i].selected
    decreases |days|
  {
    if days != [] {
      NoneSelected(days[1..]);
      assert forall i :: 1 <= i < |days| ==> days[i] == days[1..][i - 1];
    }
  }

  /** Selecting distributes over concatenation, so the order of the list is kept. */
  lemma {:induction false} SelectedNamesAppend(a: seq<DayOfWeek>, b: seq<DayOfWeek>)
    ensures SelectedNames(a + b) == SelectedNames(a) + SelectedNames(b)
    decreases |a|
  {
    if a == [] {
      assert a + b == b;
    } else {
      assert a + b == [a[0]] + (a[1..] + b);
      SelectedNamesCons(a[0], a[1..] + b);
      SelectedNamesAppend(a[1..], b);
      assert a == [a[0]] + a[1..];
      SelectedNamesCons(a[0], a[1..]);
    }
  }

  /** Each ticked day's name is selected, and each selected name is a ticked day's. */
  lemma {:induction false} SelectedNamesMembers(days: seq<DayOfWeek>)
    ensures forall i :: 0 <= i < |days| && days[i].selected ==> days[i].name in SelectedNames(days)
    ensures forall n :: n in SelectedNames(days) ==>
      exists i :: 0 <= i < |days| && days[i].selected && days[i].name == n
    decreases |days|
  {
    if days != [] {
      SelectedNamesMembers(days[1..]);
      forall i | 1 <= i < |days| ensures days[i] == days[1..][i - 1] { }
      forall n | n in SelectedNames(days)
        ensures exists i :: 0 <= i < |days| && days[i].selected && days[i].name == n
      {
        if n in SelectedNames(days[1..]) {
          var j :| 0 <= j < |days[1..]| && days[1..][j].selected && days[1..][j].name == n;
          assert days[j + 1] == days[1..][j];
        } else {
          assert days[0].selected && days[0].name == n;
        }
      }
    }
  }

  /** The English list of names: "A", "A and B", "A, B and C". */
  function JoinDays(names: seq<string>): string
    decreases |names|
  {
    if |names| == 0 then ""
    else if |names| == 1 then names[0]
    else if |names| == 2 then names[0] + " and " + names[1]
    else names[0] + ", " + JoinDays(names[1..])
  }

  /**
   * From two names on, the English list is the ", "-join of all names but
   * the last, then " and " and the last name.
   */
  lemma {:induction false} JoinDaysByLast(names: seq<string>)
    requires |names| >= 2
    ensures JoinDays(names) == Join(names[..|names| - 1], ", ") + " and " + names[|names| - 1]
    decreases |names|
  {
    var n := |names|;
    if n > 2 {
      var tail := names[1..];
      JoinDaysByLast(tail);
      assert tail[..|tail| - 1] == names[1..n - 1];
      assert names[..n - 1][1..] == names[1..n - 1];
      assert tail[|tail| - 1] == names[n - 1];
      assert Join(names[..n - 1], ", ") == names[0] + ", " + Join(names[1..n - 1], ", ");
    } else {
      assert names[..1] == [names[0]];
    }
  }

  /**
   * The weekly sentence: the guidance sentence when no day is ticked,
   * otherwise the ticked days as an English list and the formatted time.
   */
  function WeeklyDescription(days: seq<DayOfWeek>, time: string): (r: string)
    requires SelectedNames(days) != [] ==> WellFormedTime(time)
  {
    var names := SelectedNames(days);
    if names == [] then NoDaySelected
    else "Runs every week on " + JoinDays(names) + " at " + FormatTime(time) + "."
  }

  /** With no day ticked the sentence is the guidance sentence, whatever the time. */
  lemma WeeklyNothingTicked(days: seq<DayOfWeek>, time: string)
    requires forall i :: 0 <= i < |days| ==> !days[i].selected
    ensures SelectedNames(days) == [] && WeeklyDescription(days, time) == NoDaySelected
  {
    NoneSelected(days);
  }

  /** Monday, Wednesday and Friday ticked: "Monday, Wednesday and Friday", whatever the time. */
  lemma WeeklyExample(days: seq<DayOfWeek>, time: string)
    requires days == MondayWednesdayFriday() && WellFormedTime(time)
    ensures WeeklyDescription(days, time) ==
      "Runs every week on " + "Monday, Wednesday and Friday" + " at " + FormatTime(time) + "."
  {
    MondayWednesdayFridaySelected(days);
    ThreeDays(SelectedNames(days));
  }

  lemma ThreeDays(names: seq<string>)
    requires names == ["Monday", "Wednesday", "Friday"]
    ensures JoinDays(names) == "Monday, Wednesday and Friday"
  {
    assert names[1..] == ["Wednesday", "Friday"];
  }

  /** The initial list with Wednesday and Friday ticked as well. */
  function MondayWednesdayFriday(): seq<DayOfWeek> {
    InitialDaysOfWeek[2 := InitialDaysOfWeek[2].(selected := true)]
                     [4 := InitialDaysOfWeek[4].(selected := true)]
  }

  lemma MondayWednesdayFridaySelected(days: seq<DayOfWeek>)
    requires days == MondayWednesdayFriday()
    ensures SelectedNames(days) == ["Monday", "Wednesday", "Friday"]
  {
    var sunday := [days[6]];
    SelectedNamesCons(days[6], []);
    assert sunday + [] == sunday && days[6..] == sunday;
    var fromSaturday := [days[5]] + sunday;
    SelectedNamesCons(days[5], sunday);
    var fromFriday := [days[4]] + fromSaturday;
    SelectedNamesCons(days[4], fromSaturday);
    var fromThursday := [days[3]] + fromFriday;
    SelectedNamesCons(days[3], fromFriday);
    var fromWednesday := [days[2]] + fromThursday;
    SelectedNamesCons(days[2], fromThursday);
    var fromTuesday := [days[1]] + fromWednesday;
    SelectedNamesCons(days[1], fromWednesday);
    SelectedNamesCons(days[0], fromTuesday);
    assert days == [days[0]] + fromTuesday;
  }

  /** In the initial list only Monday is ticked. */
  lemma InitialSelection(days: seq<DayOfWeek>)
    requires days == InitialDaysOfWeek
    ensures SelectedNames(days) == ["Monday"]
  {
    var fromTuesday := days[1..];
    assert forall i :: 0 <= i < |fromTuesday| ==> !fromTuesday[i].selected;
    NoneSelected(fromTuesday);
    SelectedNamesCons(days[0], fromTuesday);
    assert days == [days[0]] + fromTuesday;
  }

  /** A day in front of a list contributes its own name, if ticked, before the rest. */
  lemma SelectedNamesCons(day: DayOfWeek, rest: seq<DayOfWeek>)
    ensures SelectedNames([day] + rest) == (if day.selected then [day.name] else []) + SelectedNames(rest)
  {
    assert ([day] + rest)[1..] == rest;
  }

  /** The daily sentence. */
  function DailyDescription(time: string): string
    requires WellFormedTime(time)
  {
    "Runs every day at " + FormatTime(time) + "."
  }

  /** The monthly sentence: the day of the month as an ordinal, then the formatted time. */
  function MonthlyDescription(dayOfMonth: int, time: string): string
    requires WellFormedTime(time)
  {
    "Runs every month on the " + Ordinal(dayOfMonth) + " at " + FormatTime(time) + "."
  }

  /**
   * The time the pattern formats is well formed; the other two times are
   * never read, and neither is the weekly time when no day is ticked.
   */
  predicate SelectedTimeWellFormed(pattern: string, dailyTime: string, weeklyTime: string, monthlyTime: string,
                                   days: seq<DayOfWeek>) {
    (pattern == "Daily" ==> WellFormedTime(dailyTime)) &&
    (pattern == "Weekly" && SelectedNames(days) != [] ==> WellFormedTime(weeklyTime)) &&
    (pattern == "Monthly" ==> WellFormedTime(monthlyTime))
  }

  /**
   * The sentence for the selected pattern: "Daily", "Weekly" and "Monthly"
   * each read only their own inputs; any other pattern gives the empty text.
   */
  function Describe(pattern: string, dailyTime: string, weeklyTime: string, monthlyTime: string,
                    dayOfMonth: int, days: seq<DayOfWeek>): string
    requires SelectedTimeWellFormed(pattern, dailyTime, weeklyTime, monthlyTime, days)
  {
    if pattern == "Daily" then DailyDescription(dailyTime)
    else if pattern == "Weekly" then WeeklyDescription(days, weeklyTime)
    else if pattern == "Monthly" then MonthlyDescription(dayOfMonth, monthlyTime)
    else ""
  }

  /** Only a pattern other than "Daily", "Weekly" and "Monthly" gives the empty text. */
  lemma DescribeEmptyOnlyIfUnknown(pattern: string, dailyTime: string, weeklyTime: string, monthlyTime: string,
                                   dayOfMonth: int, days: seq<DayOfWeek>)
    requires SelectedTimeWellFormed(pattern, dailyTime, weeklyTime, monthlyTime, days)
    ensures Describe(pattern, dailyTime, weeklyTime, monthlyTime, dayOfMonth, days) == "" <==>
      pattern !in {"Daily", "Weekly", "Monthly"}
  {
  }

  /** The daily sentence opens with "Runs every day at " and ends with a full stop. */
  lemma DailyShape(time: string)
    requires WellFormedTime(time)
    ensures var r := DailyDescription(time); StartsWith(r, "Runs every day at ") && r[|r| - 1] == '.'
  {
    Sentence("Runs every day at ", FormatTime(time));
  }

  /** The monthly sentence opens with "Runs every month on the " and ends with a full stop. */
  lemma MonthlyShape(dayOfMonth: int, time: string)
    requires WellFormedTime(time)
    ensures var r := MonthlyDescription(dayOfMonth, time);
      StartsWith(r, "Runs every month on the ") && r[|r| - 1] == '.'
  {
    Sentence("Runs every month on the ", Ordinal(dayOfMonth) + " at " + FormatTime(time));
  }

  /**
   * The weekly text is the guidance sentence exactly when no day is ticked;
   * otherwise it opens with "Runs every week on " and ends with a full stop.
   */
  lemma WeeklyShape(days: seq<DayOfWeek>, time: string)
    requires SelectedNames(days) != [] ==> WellFormedTime(time)
    ensures var r := WeeklyDescription(days, time);
      (r == NoDaySelected <==> SelectedNames(days) == []) &&
      (SelectedNames(days) != [] ==> StartsWith(r, "Runs every week on ") && r[|r| - 1] == '.')
  {
    WeeklyGuidanceExactly(days, time);
    if SelectedNames(days) != [] {
      WeeklyFrame(days, time);
    }
  }

  lemma WeeklyGuidanceExactly(days: seq<DayOfWeek>, time: string)
    requires SelectedNames(days) != [] ==> WellFormedTime(time)
    ensures WeeklyDescription(days, time) == NoDaySelected <==> SelectedNames(days) == []
  {
    var names := SelectedNames(days);
    if names != [] {
      WeeklySentence(JoinDays(names) + " at " + FormatTime(time));
    }
  }

  lemma WeeklyFrame(days: seq<DayOfWeek>, time: string)
    requires SelectedNames(days) != [] && WellFormedTime(time)
    ensures var r := WeeklyDescription(days, time);
      StartsWith(r, "Runs every week on ") && r[|r| - 1] == '.'
  {
    WeeklySentence(JoinDays(SelectedNames(days)) + " at " + FormatTime(time));
  }

  /** The daily sentence for the default daily time, noon. */
  lemma DailyAtNoon(time: string)
    requires time == "12:00"
    ensures WellFormedTime(time) && DailyDescription(time) == "Runs every day at 12:00 PM."
  {
    DailyAtNoonPieces(time);
    NoonSentence();
  }

  lemma NoonSentence()
    ensures "Runs every day at " + "12:00 PM" + "." == "Runs every day at 12:00 PM."
  {
  }

  lemma DailyAtNoonPieces(time: string)
    requires time == "12:00"
    ensures WellFormedTime(time) && DailyDescription(time) == "Runs every day at " + "12:00 PM" + "."
  {
    FormatTimeOfDigits(time, "12", "00", 12, 0);
    RenderNoon();
  }

  /** The 17th of each month at half past one in the afternoon. */
  lemma MonthlyExample(dayOfMonth: int, time: string)
    requires dayOfMonth == 17 && time == "13:30"
    ensures WellFormedTime(time)
    ensures MonthlyDescription(dayOfMonth, time) == "Runs every month on the 17th at 01:30 PM."
  {
    MonthlyExamplePieces(dayOfMonth, time);
    SeventeenthSentence();
  }

  lemma SeventeenthSentence()
    ensures "Runs every month on the " + "17th" + " at " + "01:30 PM" + "." ==
      "Runs every month on the 17th at 01:30 PM."
  {
  }

  lemma MonthlyExamplePieces(dayOfMonth: int, time: string)
    requires dayOfMonth == 17 && time == "13:30"
    ensures WellFormedTime(time)
    ensures MonthlyDescription(dayOfMonth, time) == "Runs every month on the " + "17th" + " at " + "01:30 PM" + "."
  {
    FormatTimeOfDigits(time, "13", "30", 13, 30);
    RenderHalfPastOnePm();
    OrdinalExamples();
  }

  /** Monday, Wednesday and Friday at nine in the morning. */
  lemma WeeklyAtNineAm(days: seq<DayOfWeek>, time: string)
    requires days == MondayWednesdayFriday() && time == "09:00"
    ensures WellFormedTime(time)
    ensures WeeklyDescription(days, time) == "Runs every week on Monday, Wednesday and Friday at 09:00 AM."
  {
    WeeklyAtNineAmPieces(days, time);
    NineAmSentence();
  }

  lemma NineAmSentence()
    ensures "Runs every week on " + "Monday, Wednesday and Friday" + " at " + "09:00 AM" + "." ==
      "Runs every week on Monday, Wednesday and Friday at 09:00 AM."
  {
  }

  lemma WeeklyAtNineAmPieces(days: seq<DayOfWeek>, time: string)
    requires days == MondayWednesdayFriday() && time == "09:00"
    ensures WellFormedTime(time)
    ensures WeeklyDescription(days, time) ==
      "Runs every week on " + "Monday, Wednesday and Friday" + " at " + "09:00 AM" + "."
  {
    FormatTimeOfDigits(time, "09", "00", 9, 0);
    RenderNineAm();
    WeeklyExample(days, time);
  }

  /** A weekly sentence has the weekly frame and is never the guidance sentence. */
  lemma WeeklySentence(middle: string)
    ensures var r := "Runs every week on " + middle + ".";
      StartsWith(r, "Runs every week on ") && r[|r| - 1] == '.' && r != NoDaySelected
  {
    Sentence("Runs every week on ", middle);
    assert NoDaySelected[0] == 'P';
  }

  lemma Sentence(prefix: string, middle: string)
    requires prefix != ""
    ensures var r := prefix + middle + ".";
      r[|r| - 1] == '.' && StartsWith(r, prefix) && r[0] == prefix[0]
  {
    var r := prefix + middle + ".";
    assert r[..|prefix|] == prefix;
  }

  predicate StartsWith(s: string, prefix: string) {
    |prefix| <= |s| && s[..|prefix|] == prefix
  }
}

=== FILE: text.dfy ===
/**
 * The string operations the cron field splitter is built on: JavaScript's
 * String.prototype.trim, String.prototype.split with the pattern /\s+/,
 * and Array.prototype.join.
 *
 * Whitespace is a fixed set of four characters (space, tab, line feed and
 * carriage return).  JavaScript's \s and trim also match vertical tab,
 * form feed, the no-break space, the byte order mark U+FEFF, the line and
 * paragraph separators U+2028 and U+2029 and the other Unicode space
 * separators; none of these is modelled.
 */
module Text {

  predicate IsWs(c: char) {
    c == ' ' || c == '\t' || c == '\n' || c == '\r'
  }

  /** Every character of s is whitespace (the empty string included). */
  predicate Blank(s: string) {
    forall i :: 0 <= i < |s| ==> IsWs(s[i])
  }

  /** No character of s is whitespace. */
  predicate NoWs(s: string) {
    forall i :: 0 <= i < |s| ==> !IsWs(s[i])
  }

  /** s neither starts nor ends with whitespace. */
  predicate Trimmed(s: string) {
    s == "" || (!IsWs(s[0]) && !IsWs(s[|s| - 1]))
  }

  /** Drops the leading run of whitespace. */
  function TrimStart(s: string): (r: string)
    ensures |r| <= |s| && r == s[|s| - |r|..]
    ensures forall k :: 0 <= k < |s| - |r| ==> IsWs(s[k])
    ensures r == "" || !IsWs(r[0])
    decreases |s|
  {
    if s != "" && IsWs(s[0]) then TrimStart(s[1..]) else s
  }

  /** Drops the trailing run of whitespace. */
  function TrimEnd(s: string): (r: string)
    ensures |r| <= |s| && r == s[..|r|]
    ensures forall k :: |r| <= k < |s| ==> IsWs(s[k])
    ensures r == "" || !IsWs(r[|r| - 1])
    decreases |s|
  {
    if s != "" && IsWs(s[|s| - 1]) then TrimEnd(s[..|s| - 1]) else s
  }

  /** String.prototype.trim: the text between the leading and the trailing whitespace. */
  function Trim(s: string): (r: string)
    ensures |r| <= |s| && Trimmed(r)
    ensures r == "" <==> Blank(s)
  {
    TrimIsTrimmed(s);
    TrimEmptyOnlyIfBlank(s);
    TrimEmptyIfBlank(s);
    TrimEnd(TrimStart(s))
  }

  lemma TrimIsTrimmed(s: string)
    ensures Trimmed(TrimEnd(TrimStart(s)))
  {
    var t := TrimStart(s);
    var r := TrimEnd(t);
    if r != "" {
      assert r[0] == t[0];
    }
  }

  lemma TrimEmptyOnlyIfBlank(s: string)
    ensures TrimEnd(TrimStart(s)) == "" ==> Blank(s)
  {
    var t := TrimStart(s);
    var r := TrimEnd(t);
    var i := |s| - |t|;
    if r == "" {
      assert t == "";
    }
  }

  lemma TrimEmptyIfBlank(s: string)
    ensures Blank(s) ==> TrimEnd(TrimStart(s)) == ""
  {
    var t := TrimStart(s);
    var r := TrimEnd(t);
    var i := |s| - |t|;
    if r != "" {
      assert !IsWs(s[i]) by {
        assert r[0] == t[0];
        assert t[0] == s[i];
      }
    }
  }

  lemma BlankAppend(a: string, b: string)
    requires Blank(a) && Blank(b)
    ensures Blank(a + b)
  {
  }

  /** The longest prefix of s that holds no whitespace. */
  function Word(s: string): (w: string)
    ensures |w| <= |s| && w == s[..|w|] && NoWs(w)
    ensures |w| == |s| || IsWs(s[|w|])
    decreases |s|
  {
    if s == "" || IsWs(s[0]) then "" else [s[0]] + Word(s[1..])
  }

  /**
   * String.prototype.split(/\s+/): the pieces of s between maximal runs of
   * whitespace.  As in JavaScript, a leading or trailing run yields an empty
   * first or last piece, and the empty string yields one empty piece.
   */
  function SplitWs(s: string): (parts: seq<string>)
    ensures |parts| >= 1
    ensures forall k :: 0 <= k < |parts| ==> NoWs(parts[k])
    decreases |s|
  {
    var w := Word(s);
    if |w| == |s| then [w]
    else
      var rest := TrimStart(s[|w|..]);
      assert |rest| < |s|;
      [w] + SplitWs(rest)
  }

  /** Array.prototype.join: the parts with sep between each neighbouring pair. */
  function Join(parts: seq<string>, sep: string): string
  {
    if |parts| == 0 then ""
    else if |parts| == 1 then parts[0]
    else parts[0] + sep + Join(parts[1..], sep)
  }

  /** Two parts are joined with the separator between them. */
  lemma JoinPair(parts: seq<string>, sep: string)
    requires |parts| == 2
    ensures Join(parts, sep) == parts[0] + sep + parts[1]
  {
    assert parts[1..] == [parts[1]];
  }

  /**
   * The whitespace-separated tokens of s: s.trim().split(/\s+/), where a
   * blank s has no tokens.  None of them is empty or holds whitespace.
   */
  function Tokens(s: string): (tokens: seq<string>)
    ensures forall k :: 0 <= k < |tokens| ==> tokens[k] != "" && NoWs(tokens[k])
    ensures tokens == [] <==> Blank(s)
  {
    var t := Trim(s);
    if t == "" then []
    else
      TrimmedPartsNonEmpty(t);
      SplitWs(t)
  }

  /** Splitting text with no whitespace at either end yields no empty piece. */
  lemma {:induction false} TrimmedPartsNonEmpty(t: string)
    requires t != "" && Trimmed(t)
    ensures forall k :: 0 <= k < |SplitWs(t)| ==> SplitWs(t)[k] != ""
    decreases |t|
  {
    var w := Word(t);
    assert w != "" by { assert |w| == |t| || IsWs(t[|w|]); }
    if |w| < |t| {
      var rest := SplitStepTrimmed(t);
      TrimmedPartsNonEmpty(rest);
    }
  }

  /** Past the first word of trimmed text, what is left to split is again trimmed, nonempty and shorter. */
  lemma SplitStepTrimmed(t: string) returns (rest: string)
    requires t != "" && Trimmed(t) && |Word(t)| < |t|
    ensures rest != "" && Trimmed(rest) && |rest| < |t|
    ensures SplitWs(t) == [Word(t)] + SplitWs(rest)
  {
    var w := Word(t);
    var tail := t[|w|..];
    rest := TrimStart(tail);
    assert tail[|tail| - 1] == t[|t| - 1];
    assert rest != "";
    assert rest[|rest| - 1] == t[|t| - 1];
    assert |rest| < |tail| by {
      assert IsWs(tail[0]);
    }
  }

  /**
   * Words laid out with runs of whitespace between them:
   * words[0] + gaps[0] + words[1] + ... + words[|words| - 1].
   */
  predicate WellSpaced(words: seq<string>, gaps: seq<string>) {
    |words| == |gaps| + 1 &&
    (forall k :: 0 <= k < |words| ==> words[k] != "" && NoWs(words[k])) &&
    (forall k :: 0 <= k < |gaps| ==> gaps[k] != "" && Blank(gaps[k]))
  }

  function Spread(words: seq<string>, gaps: seq<string>): (s: string)
    requires WellSpaced(words, gaps)
    ensures s != "" && Trimmed(s)
    decreases |gaps|
  {
    if |gaps| == 0 then words[0]
    else
      assert WellSpaced(words[1..], gaps[1..]);
      var tail := Spread(words[1..], gaps[1..]);
      var s := words[0] + gaps[0] + tail;
      assert s[|s| - 1] == tail[|tail| - 1];
      s
  }

  lemma {:induction false} WordOfPrefix(a: string, b: string)
    requires NoWs(a) && (b == "" || IsWs(b[0]))
    ensures Word(a + b) == a
    decreases |a|
  {
    if a != "" {
      assert (a + b)[1..] == a[1..] + b;
      WordOfPrefix(a[1..], b);
      assert [a[0]] + a[1..] == a;
    } else {
      assert a + b == b;
    }
  }

  lemma {:induction false} TrimStartOfBlankPrefix(lead: string, y: string)
    requires Blank(lead) && (y == "" || !IsWs(y[0]))
    ensures TrimStart(lead + y) == y
    decreases |lead|
  {
    if lead == "" {
      assert lead + y == y;
    } else {
      assert (lead + y)[1..] == lead[1..] + y;
      TrimStartOfBlankPrefix(lead[1..], y);
    }
  }

  lemma {:induction false} TrimEndOfBlankSuffix(y: string, trail: string)
    requires Blank(trail) && (y == "" || !IsWs(y[|y| - 1]))
    ensures TrimEnd(y + trail) == y
    decreases |trail|
  {
    if trail == "" {
      assert y + trail == y;
    } else {
      var s := y + trail;
      assert s[|s| - 1] == trail[|trail| - 1];
      assert s[..|s| - 1] == y + trail[..|trail| - 1];
      TrimEndOfBlankSuffix(y, trail[..|trail| - 1]);
    }
  }

  /** Trimming removes exactly the blank margins around text that is already trimmed. */
  lemma TrimOfMargins(lead: string, y: string, trail: string)
    requires Blank(lead) && Blank(trail) && Trimmed(y)
    ensures Trim(lead + y + trail) == y
  {
    assert lead + y + trail == lead + (y + trail);
    if y == "" {
      assert lead + y + trail == lead + trail;
      BlankAppend(lead, trail);
    } else {
      TrimStartOfBlankPrefix(lead, y + trail);
      TrimEndOfBlankSuffix(y, trail);
    }
  }

  /** Splitting undoes the layout: the pieces are the words, whatever the gaps. */
  lemma {:induction false} SplitSpread(words: seq<string>, gaps: seq<string>)
    requires WellSpaced(words, gaps)
    ensures SplitWs(Spread(words, gaps)) == words
    decreases |gaps|
  {
    if |gaps| == 0 {
      SplitWord(words[0]);
    } else {
      var restWords, restGaps := words[1..], gaps[1..];
      SpreadTail(words, gaps);
      SplitSpreadStep(words, gaps);
      SplitSpread(restWords, restGaps);
      ConsFirst(words);
    }
  }

  lemma ConsFirst(words: seq<string>)
    requires words != []
    ensures [words[0]] + words[1..] == words
  {
  }

  lemma SplitWord(w: string)
    requires NoWs(w)
    ensures SplitWs(w) == [w]
  {
    WordOfPrefix(w, "");
    assert w + "" == w;
  }

  lemma SpreadTail(words: seq<string>, gaps: seq<string>)
    requires WellSpaced(words, gaps) && |gaps| > 0
    ensures WellSpaced(words[1..], gaps[1..])
    ensures Spread(words, gaps) == words[0] + (gaps[0] + Spread(words[1..], gaps[1..]))
  {
  }

  /** The first piece of a layout is its first word; splitting goes on after the first gap. */
  lemma SplitSpreadStep(words: seq<string>, gaps: seq<string>)
    requires WellSpaced(words, gaps) && |gaps| > 0
    requires WellSpaced(words[1..], gaps[1..])
    requires Spread(words, gaps) == words[0] + (gaps[0] + Spread(words[1..], gaps[1..]))
    ensures SplitWs(Spread(words, gaps)) == [words[0]] + SplitWs(Spread(words[1..], gaps[1..]))
  {
    var tail := Spread(words[1..], gaps[1..]);
    var s := Spread(words, gaps);
    var w := words[0];
    var after := gaps[0] + tail;
    WordOfPrefix(w, after);
    assert s[|w|..] == after;
    TrimStartOfBlankPrefix(gaps[0], tail);
  }

  /**
   * The tokens of any text laid out as blank margins around well-spaced
   * words are exactly those words, in order; blank text has none.
   */
  lemma TokensOfLayout(lead: string, words: seq<string>, gaps: seq<string>, trail: string)
    requires Blank(lead) && Blank(trail) && WellSpaced(words, gaps)
    ensures Tokens(lead + Spread(words, gaps) + trail) == words
  {
    var s := Spread(words, gaps);
    TrimOfMargins(lead, s, trail);
    SplitSpread(words, gaps);
  }
}
